=== FILE: README.md ===
# Longest word of words — a verified model

`findLongest` reads a word list, one word per line. It cleans each line by:

- dropping the trailing `'\n'`/`'\r'`;
- dropping leading and trailing spaces;
- lower-casing.

Each non-empty cleaned word goes into a word set and into a length map. The map sends a length to the bucket of words of that length, in insertion order.

It then reports how many words of the list are *composite*: made of two or more other words of the list. It also reports the first two composite words it meets when it scans the buckets from the longest length down. These are a longest composite word and a longest among the others.

This project models that core in Dafny and proves what it promises.

| module (file) | source | form |
|---|---|---|
| `Normalize` (normalize.dfy) | `cleanWord` and its four helpers | one method per helper, each loop proved against a specification function |
| `Decompose` (decompose.dfy) | `wordIsMadeOfOtherWords` | a recursive function `IsComposite` plus the source's counter loop as a method |
| `Sorting` (sorting.dfy) | `std::sort` as the source uses it | insertion sort; the sorted permutation is unique |
| `LengthIndex` (lengthindex.dfy) | the length map `FLLengthMap` and its visiting order | value types, scan functions and lemmas |
| `Search` (search.dfy) | `sizeHashSortFunction`, `extractAndSortKeysFromSizeHash`, `findLongestWordsOfWords` | methods with loops, proved against `Matches`, the composite words in scan order |
| `Ingest` (ingest.dfy) | the line loop of `hashStringFile` | a method with a loop, proved against `CleanedWords`/`BucketsOf` |
| `Seqs` (seqs.dfy) | — | shared facts about sequences without repeats |

The containers are values:

- the word set is `set<string>`;
- the length map is `map<nat, seq<string>>`;
- a string is `seq<char>`, one `char` per byte of the `std::string`: lengths, bucket keys, split points and comparisons are in bytes.

The helpers that change a `std::string&` in place take the string and return its new value. The driver's first and second word references become out-parameters.

## Model

| member | source | states |
|---|---|---|
| Decompose.IsComposite | findLongest.cpp:250-252 | A word shorter than two characters is never composite: the loop starts at `sublen = length - 1` and runs only while `sublen > 0`. |
| Decompose.TryPrefixes | findLongest.cpp:252-272 | The loop from a given prefix length succeeds only at a prefix length of at least 1. |
| Decompose.TryPrefixesExact | findLongest.cpp:252-272 | The loop from `sublen` down returns true iff some prefix length `p` in `1..sublen` splits the word: prefix in the set, and the rest in the set or itself composite. |
| Decompose.CompositeExact | findLongest.cpp:247-276 | A word is composite iff it splits at some `p` in `1..n-1`; the full word is never tried as its own prefix. |
| Decompose.CompositeSound | findLongest.cpp:253-268 | A composite word has a partition into at least two non-empty store words, each strictly shorter than the word. |
| Decompose.CompositeComplete | findLongest.cpp:252-272 | Every partition of a word into two or more non-empty store words makes the checker return true; the greedy order misses no partition. |
| Decompose.CompositeIffDecomposition | findLongest.cpp:247-276 | The checker decides exactly whether a partition into two or more store words exists. |
| Decompose.CompositeDependsOnShorterWords | findLongest.cpp:253-260 | Whether a word is composite depends only on the store words shorter than it. |
| Decompose.SelfMembershipIrrelevant | findLongest.cpp:250 | Adding or removing the word itself from the set does not change the answer. |
| Decompose.CompositeMonotone | findLongest.cpp:256-268 | A larger word set keeps every composite word composite. |
| Decompose.ForeignCharacterBlocks | findLongest.cpp:253-268 | A word holding a character that no shorter store word contains is not composite. |
| Decompose.WordIsMadeOfOtherWords | findLongest.cpp:247-276 | The counter loop, with invariant `sublen + remlen == n`, returns exactly `IsComposite`; the substring `word.substr(sublen, remlen)` is the whole rest of the word. |
| Normalize.LowerChar | findLongest.cpp:134 | ASCII `tolower` of one character: the result is not upper-case, and it is a space iff the input is. |
| Normalize.StripEndOfLine | findLongest.cpp:142-149 | The result is a prefix of the input; everything removed is `'\n'` or `'\r'`; the result does not end in either. |
| Normalize.StripLeadingSpaces | findLongest.cpp:157-171 | The result is a suffix of the input; everything removed is `' '`; the result does not start with `' '`. |
| Normalize.TrailingRunStart | findLongest.cpp:182-187 | The index where the run of trailing spaces starts: everything from it on is `' '`, and the character before it is not. |
| Normalize.StripTrailingSpaces | findLongest.cpp:179-193 | The intended trailing trim: a prefix; everything removed is `' '`; the result does not end in `' '`. |
| Normalize.Erase | findLongest.cpp:167-189 | `std::string::replace(pos, count, "")`, as called at 167 and 189: the characters before `pos` stay in front; the result is `count` characters shorter when `pos + count` is within the string, and otherwise the count is clamped and only the first `pos` characters remain. That the characters after the erased range are kept is `Normalize.EraseKeepsTail`. |
| Normalize.EraseKeepsTail | findLongest.cpp:167-189 | When `pos + count` is within the string, `replace(pos, count, "")` keeps the characters after the erased range, in order, right after position `pos`; with `Normalize.Erase`, the result is `s[..pos]` followed by `s[pos + count..]`. |
| Normalize.LowerCase | findLongest.cpp:132-135 | Same length; every character is `LowerChar` of the input character at the same index. |
| Normalize.LowerCaseNormalizes | findLongest.cpp:132-135 | Lower-casing keeps the length and, on a word without outer spaces, leaves a lower-case word without outer spaces. |
| Normalize.TrimmedHasNoOuterSpace | findLongest.cpp:203-205 | The three trims never lengthen the line and leave no leading or trailing space. |
| Normalize.Clean | findLongest.cpp:201-207 | `cleanWord` never lengthens the line and leaves no leading or trailing space. |
| Normalize.CleanNormalizes | findLongest.cpp:201-207 | A cleaned line is no longer than the line, is lower-case and has no leading or trailing space. |
| Normalize.CleanKeepsReturnBeforeSpaces | findLongest.cpp:201-207 | The line `"a\r "` cleans to `"a\r"`, because the `'\r'` is shielded by the space when the end-of-line trim runs; cleaning again gives `"a"`, so cleaning is not idempotent. |
| Normalize.CleanKeepsTabs | findLongest.cpp:162-184 | Only `' '` counts as whitespace: `" \tA "` cleans to `"\ta"`. |
| Normalize.TrimEndOfLine | findLongest.cpp:142-149 | The `pop_back` loop computes `StripEndOfLine`. |
| Normalize.LeadingRunExact | findLongest.cpp:160-165 | When the first `n` characters are spaces and the next is not (or there is none), the leading trim leaves the suffix from `n`. |
| Normalize.LeadingRunErased | findLongest.cpp:160-167 | Erasing the scanned run with `replace(0, end + 1, "")` is the leading trim; with no run the string is kept. |
| Normalize.TrimLeadingWhitespace | findLongest.cpp:157-171 | The scan-and-replace computes `StripLeadingSpaces`. |
| Normalize.TrailingTrimAsWritten | findLongest.cpp:179-193 | The helper as written: it truncates at the first trailing space, except on a line made only of spaces, where one space is left. |
| Normalize.TrailingTrimOfBlanks | findLongest.cpp:189 | On `"  "` the helper as written returns `" "`, where the intended trim returns `""`. |
| Normalize.TrimTrailingWhitespace | findLongest.cpp:179-193 | The backward scan and `replace(end, slen - 1, "")` compute `TrailingTrimAsWritten`; on a line that does not start with a space this is `StripTrailingSpaces`. |
| Normalize.ToLowerString | findLongest.cpp:132-135 | The in-place transform computes `LowerCase`; an empty string is left alone. |
| Normalize.CleanWord | findLongest.cpp:201-207 | The four helpers in order compute `Clean`, the trims followed by lower-casing. |
| Sorting.InsertBy | findLongest.cpp:304-307 | Inserting adds exactly one occurrence of the element. |
| Sorting.SortBy | findLongest.cpp:304-307 | The sort result is a permutation of its input. |
| Sorting.SortBySorted | findLongest.cpp:304-307 | Under a strict total order the sort result is sorted. |
| Sorting.SortedUnique | findLongest.cpp:307 | Two sorted permutations of the same elements under a strict total order are equal, so the sorting algorithm cannot be observed. |
| LengthIndex.AscendingKeys | findLongest.cpp:307 | The keys in strictly ascending order, each key exactly once. |
| LengthIndex.ScanStep | findLongest.cpp:335-336 | Visiting the keys from index `i` down is visiting from `i + 1` down, then the bucket of key `i`. |
| LengthIndex.ScanMembers | findLongest.cpp:335-340 | Over an exact index, the scan of a key list holds exactly the store words whose length is in the list. |
| LengthIndex.ScanDistinct | findLongest.cpp:335-340 | Over an exact index with strictly ascending keys, the scan repeats no word. |
| LengthIndex.ScanLongestFirst | findLongest.cpp:335-340 | Walking ascending keys from the last visits no word after a shorter one. |
| LengthIndex.ScanOrderEnumerates | findLongest.cpp:331-340 | The search visits every store word exactly once, longest first. |
| Search.StrLess | findLongest.cpp:286-289 | `strcmp(a, b) < 0` on whole strings, in its prefix cases: a proper prefix comes first, and no string is less than one of its own prefixes. That the first differing character decides is `Search.StrLessFirstDifference`. |
| Search.StrLessFirstDifference | findLongest.cpp:286-289 | Past a common prefix of length `i`, `strcmp(a, b) < 0` holds iff the character at `i` of `a` is below that of `b`: the first differing character decides. |
| Search.StrLessIrreflexive | findLongest.cpp:286-289 | `strcmp(a, a) < 0` never holds. |
| Search.StrLessTransitive | findLongest.cpp:286-289 | The `strcmp` order is transitive. |
| Search.StrLessTotal | findLongest.cpp:286-289 | Of two different strings, one is `strcmp`-less than the other. |
| Search.StrLessIsStrictTotalOrder | findLongest.cpp:286-289 | `sizeHashSortFunction` is a strict total order, the ordering `std::sort` needs. |
| Search.NatLessIsStrictTotalOrder | findLongest.cpp:307 | The key order is a strict total order. |
| Search.PreSorted | findLongest.cpp:304-305 | The optional pre-sort keeps the set of lengths and the words of every bucket with their multiplicities; with the flag off the map is unchanged. |
| Search.PreSortedKeepsIndex | findLongest.cpp:302-306 | The pre-sort only reorders buckets: the index stays exact and, when asked for, every bucket is sorted by `sizeHashSortFunction`. |
| Search.PreSortedWhenDone | findLongest.cpp:302-306 | A map with the same keys whose every bucket is the sorted (or kept) bucket is the pre-sorted map. |
| Search.SortedKeysAscending | findLongest.cpp:302-307 | Whatever order the hash map gives the keys in, sorting the pushed keys gives the ascending keys. |
| Search.ExtractAndSortKeys | findLongest.cpp:301-308 | The key vector ends as the map's keys in strictly ascending order; the map ends pre-sorted when asked for, and unchanged otherwise. |
| Search.MatchesMembers | findLongest.cpp:339-345 | The matches of a scan are exactly its composite words. |
| Search.MatchesNext | findLongest.cpp:339-345 | Checking one more word of a bucket appends it to the matches iff it is composite, and leaves them unchanged otherwise. |
| Search.NthAppend | findLongest.cpp:346-354 | Recording a new match keeps the earlier recorded positions and puts the word at the next one. |
| Search.MatchesKeepOrder | findLongest.cpp:335-356 | Over a scan without repeats, longest first, the matches keep both properties. |
| Search.MatchesOfEnumeration | findLongest.cpp:326-359 | Over a scan that visits every store word once, longest first, the count is the number of composite words; the first match is a longest composite word; the second is no longer than the first and a longest among the others. |
| Search.FindLongestReport | findLongest.cpp:326-359 | The same facts for the driver's own scan order over an exact index, with or without the pre-sort. |
| Search.FindLongestWordsOfWords | findLongest.cpp:326-359 | The driver returns the number of matches in its scan order, and the first and second match, with `""` when there is none. |
| Search.ScanBuckets | findLongest.cpp:327-358 | The two nested loops, walking the keys from the last and each bucket in order, return the number of composite words met and the first and second of them, with `""` when there is none. |
| Search.ScanBucket | findLongest.cpp:337-356 | The inner loop over one bucket carries the count, the two flags and the first and second match from the words scanned before the bucket to the words scanned after it: each composite word is counted, and recorded only while fewer than two are. |
| Ingest.KeptNext | findLongest.cpp:383-385 | One more line adds its cleaned word to the stored words iff the word is not empty. |
| Ingest.KeptPrefix | findLongest.cpp:382-385 | The words of the first lines are a prefix of the words of all lines. |
| Ingest.KeptMembers | findLongest.cpp:384-385 | The stored words are exactly the non-empty cleaned lines. |
| Ingest.CleanedWordsMembers | findLongest.cpp:382-387 | The words offered to the set are exactly the non-empty cleaned lines, and each is lower-case with no outer space. |
| Ingest.PushAppends | findLongest.cpp:390 | `(*sizeHash)[lineLen].push_back(...)` adds the length to the keys, appends the word to the end of its bucket (a new bucket holding only the word when the length was new) and leaves every other bucket unchanged. |
| Ingest.BucketsKeepOrder | findLongest.cpp:385-390 | Each bucket holds the words of its length in input order, and the map's keys are exactly the lengths that occur. |
| Ingest.OfLengthMembers | findLongest.cpp:390 | The words of one length are exactly those input words of that length. |
| Ingest.OfLengthDistinct | findLongest.cpp:387-390 | A list without repeats fills each bucket without repeats. |
| Ingest.IngestBuildsIndex | findLongest.cpp:382-397 | Distinct non-empty words build an exact index, with every word once in the bucket of its length and no bucket for length 0. |
| Ingest.DuplicateSpoilsLoad | findLongest.cpp:387-395 | A cleaned line whose word the set already holds means the list of cleaned words repeats a word. |
| Ingest.StoreNewWord | findLongest.cpp:387-390 | Storing a word not yet stored keeps the stored words distinct, adds the word to the set and pushes it onto the bucket of its length. |
| Ingest.HashStringLines | findLongest.cpp:382-399 | The load succeeds iff the cleaned words repeat nothing. On success the set and map hold exactly those words and their buckets. On failure the load stops at the first line whose word is already in the set, holding the words before it. |
| Ingest.LoadThenSearch | findLongest.cpp:476-479 | After a successful load, the search counts the composite words of the list, reports a longest composite word first and a longest among the others second. |

## Left out

- Opening and reading the file, `getline`, and `exit(1)` when the file cannot be opened are not modelled. The lines arrive as a `seq<string>`.
- Argument parsing, the usage text, `main`'s printing and the `new`/`delete` of the containers are not modelled. The pre-sort flag is a plain `bool` parameter.
- The debug `printf` tracing is not modelled; it has no effect on results. The `printf` of the error message at findLongest.cpp:392, when the set refuses a word, is not modelled either; that path is the `ok == false` result of `Ingest.HashStringLines`.
- Hash-container internals are not modelled. The set is a `set<string>` and the length map a `map<nat, seq<string>>`.
- The buckets hold the words themselves rather than pointers into the set. Aliasing between the set and the buckets is therefore not modelled.
- The key loop of `extractAndSortKeysFromSizeHash` visits the keys in an arbitrary order (`k :| k in remaining`). The proof shows that the order is erased by the sort.
- The pre-sort changes the buckets inside the map in place. The model returns the changed map from `ExtractAndSortKeys` and hands it to the scan.
- `std::sort` is modelled by an insertion sort. Under a strict total order the sorted result is unique (`Sorting.SortedUnique`), so the choice of algorithm cannot be observed.
- The two nested loops of `findLongestWordsOfWords` are the separate method `Search.ScanBuckets`, called by the driver after the key extraction; its inner loop over one bucket is the method `Search.ScanBucket`, which takes and returns the driver's counter, flags and words.
- Normalize.LowerChar: `std::tolower` is modelled for ASCII `A`-`Z` only. Locale-dependent folding and the undefined behaviour on negative `char` values are not modelled.
- Search.StrLess: `strcmp` stops at an embedded `'\0'`; the model compares whole strings. The two differ only on words that contain `'\0'`. With one `char` per byte in `0..255`, the `char` order is `strcmp`'s unsigned byte order.
- Search.FindLongestWordsOfWords: the `int` counters and indices are unbounded integers. Overflow on more than 2^31 - 1 words is not modelled.
- Decompose.WordIsMadeOfOtherWords: the `int` lengths `sublen` and `remlen`, `int current` in the trims and the `vector<int>` length keys are unbounded. Overflow on a word longer than 2^31 - 1 bytes is not modelled.
- Text encoding is not modelled. A string is the `std::string`'s bytes, one `char` per byte. Read as decoded Unicode text, the model would measure lengths and split points in characters, where the program measures them in bytes; on multi-byte UTF-8 input the two can order the buckets differently.
- Normalize.CleanNormalizes: the stored words have no leading or trailing space, but a `'\r'` followed by spaces survives cleaning (`Normalize.CleanKeepsReturnBeforeSpaces`). The word set can therefore hold a word ending in `'\r'`, and cleaning is not idempotent. The word store is meant to hold no line-ending characters; the code does not guarantee that, and the model follows the code.

## Findings

| source | as written | input that shows it | evidently intended | confidence | as-written member | corrected member |
|---|---|---|---|---|---|---|
| findLongest.cpp:189 | `s.replace(end, (slen - 1), "")` erases `slen - 1` characters from the first trailing space. When that space is at index 0, one character is left. | `"  "` becomes `" "` | erase everything from `end` to the end of the string, giving `""` | not executed; `cleanWord` runs the leading trim first, so a line of spaces is already empty here | Normalize.TrailingTrimAsWritten, Normalize.TrailingTrimOfBlanks | Normalize.StripTrailingSpaces |

=== FILE: decompose.dfy ===
/**
 * The decomposition checker, `wordIsMadeOfOtherWords`: is a word the
 * concatenation of two or more words of the store?  The source tries the
 * prefix lengths `n - 1` down to `1`; a prefix in the store is accepted when
 * the rest of the word is in the store too, or is itself composite.
 */
module Decompose {

  /** `IsComposite(S, w)`: the loop of `wordIsMadeOfOtherWords` started at `|w| - 1`. */
  function IsComposite(S: set<string>, w: string): (r: bool)
    ensures r ==> 2 <= |w|
    decreases |w|, |w|
  {
    TryPrefixes(S, w, |w| - 1)
  }

  /** The loop from the prefix length `sublen` downwards (an empty word starts at -1). */
  function TryPrefixes(S: set<string>, w: string, sublen: int): (r: bool)
    requires sublen < |w|
    ensures r ==> 1 <= sublen
    decreases |w|, sublen
  {
    if sublen <= 0 then false
    else if w[..sublen] in S && (w[sublen..] in S || IsComposite(S, w[sublen..])) then true
    else TryPrefixes(S, w, sublen - 1)
  }

  /** One iteration of the loop succeeds at the prefix length `p`. */
  predicate SplitsAt(S: set<string>, w: string, p: int) {
    1 <= p < |w| && w[..p] in S && (w[p..] in S || IsComposite(S, w[p..]))
  }

  /** The loop from `sublen` down succeeds exactly when some prefix length it tries works. */
  lemma {:induction false} TryPrefixesExact(S: set<string>, w: string, sublen: int)
    requires sublen < |w|
    ensures TryPrefixes(S, w, sublen) <==> exists p :: 1 <= p <= sublen && SplitsAt(S, w, p)
    decreases sublen
  {
    if sublen > 0 {
      TryPrefixesExact(S, w, sublen - 1);
      assert TryPrefixes(S, w, sublen) == (SplitsAt(S, w, sublen) || TryPrefixes(S, w, sublen - 1));
    }
  }

  /** Exact characterisation: a word is composite iff it splits at some `p` in `1..|w|-1`. */
  lemma CompositeExact(S: set<string>, w: string)
    ensures IsComposite(S, w) <==> exists p :: 1 <= p < |w| && SplitsAt(S, w, p)
  {
    TryPrefixesExact(S, w, |w| - 1);
  }

  // ---------------------------------------------------------------------
  // Meaning: a partition into at least two pieces from the store

  function Concat(pieces: seq<string>): string {
    if pieces == [] then [] else pieces[0] + Concat(pieces[1..])
  }

  /** `pieces` is a partition of `w` into two or more non-empty words of `S`. */
  ghost predicate IsDecomposition(S: set<string>, w: string, pieces: seq<string>) {
    |pieces| >= 2 &&
    (forall i :: 0 <= i < |pieces| ==> pieces[i] != [] && pieces[i] in S) &&
    Concat(pieces) == w
  }

  /** Soundness: a composite word has a partition, every piece strictly shorter than the word. */
  lemma {:induction false} CompositeSound(S: set<string>, w: string) returns (pieces: seq<string>)
    requires IsComposite(S, w)
    ensures IsDecomposition(S, w, pieces)
    ensures forall i :: 0 <= i < |pieces| ==> |pieces[i]| < |w|
    decreases |w|
  {
    CompositeExact(S, w);
    var p :| 1 <= p < |w| && SplitsAt(S, w, p);
    assert w == w[..p] + w[p..];
    if w[p..] in S {
      pieces := [w[..p], w[p..]];
      assert Concat(pieces[1..]) == w[p..] by {
        assert pieces[1..] == [w[p..]];
        assert Concat([w[p..]]) == w[p..] + Concat([]);
      }
    } else {
      var rest := CompositeSound(S, w[p..]);
      pieces := [w[..p]] + rest;
      assert pieces[1..] == rest;
    }
  }

  /** A concatenation whose first piece is non-empty is non-empty and at least that long. */
  lemma {:induction false} ConcatNonEmpty(pieces: seq<string>)
    requires pieces != [] && pieces[0] != []
    ensures |Concat(pieces)| >= |pieces[0]| > 0
  {
  }

  /** Completeness: every partition into two or more store words makes the word composite. */
  lemma {:induction false} CompositeComplete(S: set<string>, w: string, pieces: seq<string>)
    requires IsDecomposition(S, w, pieces)
    ensures IsComposite(S, w)
    decreases |pieces|
  {
    var p := |pieces[0]|;
    var rest := pieces[1..];
    assert w == pieces[0] + Concat(rest);
    ConcatNonEmpty(rest);
    assert w[..p] == pieces[0] && w[p..] == Concat(rest);
    assert pieces[0] in S && rest[0] == pieces[1] && pieces[1] in S;
    if |rest| == 1 {
      assert Concat(rest) == rest[0] + Concat([]);
      assert Concat(rest) == rest[0];
    } else {
      CompositeComplete(S, w[p..], rest);
    }
    assert SplitsAt(S, w, p);
    CompositeExact(S, w);
  }

  /** The checker decides exactly the existence of a partition. */
  lemma CompositeIffDecomposition(S: set<string>, w: string)
    ensures IsComposite(S, w) <==> exists pieces :: IsDecomposition(S, w, pieces)
  {
    if IsComposite(S, w) {
      var pieces := CompositeSound(S, w);
    }
    forall pieces | IsDecomposition(S, w, pieces) ensures IsComposite(S, w) {
      CompositeComplete(S, w, pieces);
    }
  }

  /** Only store words shorter than `w` can influence whether `w` is composite. */
  lemma {:induction false} CompositeDependsOnShorterWords(S: set<string>, T: set<string>, w: string)
    requires forall x :: |x| < |w| ==> (x in S <==> x in T)
    ensures IsComposite(S, w) == IsComposite(T, w)
    decreases |w|
  {
    forall p | 1 <= p < |w| ensures SplitsAt(S, w, p) == SplitsAt(T, w, p) {
      CompositeDependsOnShorterWords(S, T, w[p..]);
    }
    CompositeExact(S, w);
    CompositeExact(T, w);
  }

  /** The whole word is never one of its own pieces: its own membership does not matter. */
  lemma SelfMembershipIrrelevant(S: set<string>, w: string)
    ensures IsComposite(S + {w}, w) == IsComposite(S - {w}, w)
  {
    CompositeDependsOnShorterWords(S + {w}, S - {w}, w);
  }

  /** A larger store keeps every composite word composite. */
  lemma CompositeMonotone(S: set<string>, T: set<string>, w: string)
    requires S <= T
    ensures IsComposite(S, w) ==> IsComposite(T, w)
  {
    if IsComposite(S, w) {
      var pieces := CompositeSound(S, w);
      CompositeComplete(T, w, pieces);
    }
  }

  /** Every character of a concatenation comes from one of its pieces. */
  lemma {:induction false} InConcat(pieces: seq<string>, c: char) returns (i: nat)
    requires c in Concat(pieces)
    ensures i < |pieces| && c in pieces[i]
  {
    assert pieces != [];
    if c in pieces[0] {
      i := 0;
    } else {
      var j := InConcat(pieces[1..], c);
      i := j + 1;
    }
  }

  /** A character that no shorter store word contains keeps a word from being composite. */
  lemma ForeignCharacterBlocks(S: set<string>, w: string, c: char)
    requires c in w
    requires forall x :: x in S && |x| < |w| ==> c !in x
    ensures !IsComposite(S, w)
  {
    if IsComposite(S, w) {
      var pieces := CompositeSound(S, w);
      var i := InConcat(pieces, c);
    }
  }

  // ---------------------------------------------------------------------
  // The source's loop

  /** `wordIsMadeOfOtherWords`: the counter loop over `sublen`/`remlen` with recursion. */
  method WordIsMadeOfOtherWords(word: string, S: set<string>) returns (found: bool)
    ensures found == IsComposite(S, word)
    decreases |word|
  {
    CompositeExact(S, word);
    var sublen := |word| - 1;
    var remlen := 1;
    while sublen > 0
      invariant -1 <= sublen < |word| && sublen + remlen == |word|
      invariant forall p :: sublen < p < |word| ==> !SplitsAt(S, word, p)
    {
      var partWord := word[..sublen];
      if partWord in S {
        var remainingString := word[sublen..sublen + remlen];
        assert remainingString == word[sublen..];
        if remainingString in S {
          assert SplitsAt(S, word, sublen);
          return true;
        }
        var inner := WordIsMadeOfOtherWords(remainingString, S);
        if inner {
          assert SplitsAt(S, word, sublen);
          return true;
        }
      }
      sublen := sublen - 1;
      remlen := remlen + 1;
    }
    return false;
  }
}

=== FILE: ingest.dfy ===
/**
 * Loading the word list, `hashStringFile`: every line is cleaned, and a
 * non-empty cleaned word is inserted into the word set and appended to the
 * bucket of its length.  An insertion the set refuses (the word is already
 * there) stops the load and reports failure.  Opening and reading the file
 * are outside the model: the lines arrive as a sequence.
 */
module Ingest {
  import opened Seqs
  import opened Normalize
  import opened LengthIndex
  import opened Decompose
  import opened Search

  // ---------------------------------------------------------------------
  // Specification functions

  /** Every line, cleaned. */
  function CleanAll(lines: seq<string>): seq<string> {
    seq(|lines|, i requires 0 <= i < |lines| => Clean(lines[i]))
  }

  /** The non-empty words of `cs`, in order: the words the load stores. */
  function Kept(cs: seq<string>): seq<string> {
    if cs == [] then []
    else Kept(cs[..|cs| - 1]) + (if cs[|cs| - 1] != [] then [cs[|cs| - 1]] else [])
  }

  /** The non-empty cleaned words of `lines`, in line order. */
  function CleanedWords(lines: seq<string>): seq<string> {
    Kept(CleanAll(lines))
  }

  /** The words stored from the first `n` lines. */
  function StoredAfter(lines: seq<string>, n: nat): seq<string>
    requires n <= |lines|
  {
    Kept(CleanAll(lines)[..n])
  }

  /** `(*sizeHash)[w.length()].push_back(w)`: appends `w` to the bucket of its length,
      creating the bucket when there is none. */
  function Push(m: Buckets, w: string): Buckets {
    m[|w| := Bucket(m, |w|) + [w]]
  }

  /** The length map built by pushing each word of `ws`, in order. */
  function BucketsOf(ws: seq<string>): Buckets {
    if ws == [] then map[] else Push(BucketsOf(ws[..|ws| - 1]), ws[|ws| - 1])
  }

  /** The words of `ws` of length `k`, in order. */
  function OfLength(ws: seq<string>, k: nat): seq<string> {
    if ws == [] then []
    else OfLength(ws[..|ws| - 1], k) + (if |ws[|ws| - 1]| == k then [ws[|ws| - 1]] else [])
  }

  // ---------------------------------------------------------------------
  // Properties of the stored words

  /** One more line adds its cleaned word, when it is not empty. */
  lemma KeptNext(lines: seq<string>, i: nat)
    requires i < |lines|
    ensures StoredAfter(lines, i + 1)
         == StoredAfter(lines, i) + if Clean(lines[i]) != [] then [Clean(lines[i])] else []
  {
    var cs := CleanAll(lines);
    var t := cs[..i + 1];
    assert t[..i] == cs[..i] && t[i] == Clean(lines[i]);
  }

  /** The words of the first lines come first. */
  lemma {:induction false} KeptPrefix(cs: seq<string>, j: nat)
    requires j <= |cs|
    ensures Kept(cs[..j]) <= Kept(cs)
    decreases |cs|
  {
    if j == |cs| {
      assert cs[..j] == cs;
    } else {
      var init := cs[..|cs| - 1];
      KeptPrefix(init, j);
      assert init[..j] == cs[..j];
    }
  }

  /** The stored words are the non-empty ones. */
  lemma {:induction false} KeptMembers(cs: seq<string>)
    ensures forall w :: w in Kept(cs) <==> w in cs && w != []
  {
    if cs != [] {
      var init := cs[..|cs| - 1];
      KeptMembers(init);
      assert cs == init + [cs[|cs| - 1]];
    }
  }

  /** The stored words are exactly the non-empty cleaned lines, each normalised. */
  lemma CleanedWordsMembers(lines: seq<string>)
    ensures forall w :: w in CleanedWords(lines) <==> w in CleanAll(lines) && w != []
    ensures forall w :: w in CleanedWords(lines) ==> IsNormalized(w)
  {
    var cs := CleanAll(lines);
    KeptMembers(cs);
    forall w | w in CleanedWords(lines) ensures IsNormalized(w) {
      var i :| 0 <= i < |cs| && cs[i] == w;
      CleanNormalizes(lines[i]);
    }
  }

  // ---------------------------------------------------------------------
  // Properties of the length map

  /** A push adds the word's length to the keys, appends the word to the end of its bucket
      (an empty one when the length was new) and leaves every other bucket alone. */
  lemma PushAppends(m: Buckets, w: string)
    ensures Push(m, w).Keys == m.Keys + {|w|}
    ensures Bucket(Push(m, w), |w|) == Bucket(m, |w|) + [w]
    ensures |w| !in m ==> Bucket(Push(m, w), |w|) == [w]
    ensures Push(m, w) - {|w|} == m - {|w|}
  {
  }

  /** Every bucket holds the words of its length in input order, and the keys are exactly
      the lengths that occur. */
  lemma {:induction false} BucketsKeepOrder(ws: seq<string>)
    ensures forall k :: Bucket(BucketsOf(ws), k) == OfLength(ws, k)
    ensures forall k :: k in BucketsOf(ws) <==> exists w :: w in ws && |w| == k
  {
    if ws != [] {
      var init, last := ws[..|ws| - 1], ws[|ws| - 1];
      BucketsKeepOrder(init);
      assert ws == init + [last];
    }
  }

  /** The words of one length are exactly the input words of that length. */
  lemma {:induction false} OfLengthMembers(ws: seq<string>, k: nat)
    ensures forall w :: w in OfLength(ws, k) <==> w in ws && |w| == k
  {
    if ws != [] {
      var init, last := ws[..|ws| - 1], ws[|ws| - 1];
      OfLengthMembers(init, k);
      assert ws == init + [last];
    }
  }

  /** Words of one length, listed without repeats, fill a bucket without repeats. */
  lemma {:induction false} OfLengthDistinct(ws: seq<string>, k: nat)
    requires Distinct(ws)
    ensures Distinct(OfLength(ws, k))
  {
    if ws != [] {
      var init, last := ws[..|ws| - 1], ws[|ws| - 1];
      assert Distinct(init);
      OfLengthDistinct(init, k);
      OfLengthMembers(init, k);
      if |last| == k {
        assert forall x :: x in OfLength(init, k) ==> x !in [last];
        DistinctConcat(OfLength(init, k), [last]);
      }
    }
  }

  /** A load without repeated words builds an exact index of its words, with no empty word. */
  lemma IngestBuildsIndex(ws: seq<string>)
    requires Distinct(ws)
    requires forall w :: w in ws ==> w != []
    ensures ExactIndex(Elems(ws), BucketsOf(ws))
    ensures 0 !in BucketsOf(ws)
  {
    var m := BucketsOf(ws);
    BucketsKeepOrder(ws);
    forall k | k in m ensures Distinct(m[k]) && forall w :: w in m[k] <==> w in ws && |w| == k {
      assert Bucket(m, k) == m[k];
      OfLengthDistinct(ws, k);
      OfLengthMembers(ws, k);
    }
    forall w | w in Elems(ws) ensures |w| in m && w in m[|w|] {
      assert Bucket(m, |w|) == m[|w|];
      OfLengthMembers(ws, |w|);
    }
  }

  /** A word stored twice stays a repeat, however many words follow. */
  lemma RepeatPersists(before: seq<string>, w: string, all: seq<string>)
    requires before + [w] <= all && w in Elems(before)
    ensures !Distinct(all)
  {
    var p :| 0 <= p < |before| && before[p] == w;
    assert all[p] == (before + [w])[p] && all[|before|] == (before + [w])[|before|];
  }

  /** A cleaned line whose word is already stored makes the whole load repeat a word. */
  lemma DuplicateSpoilsLoad(lines: seq<string>, i: nat)
    requires i < |lines|
    requires Clean(lines[i]) != [] && Clean(lines[i]) in Elems(StoredAfter(lines, i))
    ensures !Distinct(CleanedWords(lines))
  {
    KeptNext(lines, i);
    KeptPrefix(CleanAll(lines), i + 1);
    RepeatPersists(StoredAfter(lines, i), Clean(lines[i]), CleanedWords(lines));
  }

  /** Storing a new word keeps the stored words distinct, adds it to the set and to the
      bucket of its length. */
  lemma StoreNewWord(ws: seq<string>, w: string)
    requires Distinct(ws) && w !in Elems(ws)
    ensures Distinct(ws + [w])
    ensures Elems(ws + [w]) == Elems(ws) + {w}
    ensures BucketsOf(ws + [w]) == Push(BucketsOf(ws), w)
  {
    assert forall x :: x in ws ==> x !in [w];
    DistinctConcat(ws, [w]);
    assert (ws + [w])[..|ws|] == ws;
  }

  // ---------------------------------------------------------------------
  // The source's loop

  /** The line loop of `hashStringFile`.  On success the set holds the cleaned words and the
      map their buckets; on the first word the set already holds, the load stops there, at
      line `stoppedAt`. */
  method HashStringLines(lines: seq<string>)
    returns (ok: bool, words: set<string>, buckets: Buckets, ghost stoppedAt: nat)
    ensures ok == Distinct(CleanedWords(lines))
    ensures ok ==> words == Elems(CleanedWords(lines)) && buckets == BucketsOf(CleanedWords(lines))
    ensures !ok ==> stoppedAt < |lines| && LoadStoppedAt(lines, stoppedAt, words, buckets)
  {
    words := {};
    buckets := map[];
    ghost var stored: seq<string> := [];
    var i := 0;
    while i < |lines|
      invariant 0 <= i <= |lines|
      invariant stored == StoredAfter(lines, i)
      invariant Distinct(stored)
      invariant words == Elems(stored) && buckets == BucketsOf(stored)
    {
      var line := CleanWord(lines[i]);
      var lineLen := |line|;
      KeptNext(lines, i);
      if lineLen > 0 {
        if line in words {
          DuplicateSpoilsLoad(lines, i);
          return false, words, buckets, i;
        }
        StoreNewWord(stored, line);
        stored := stored + [line];
        words := words + {line};
        buckets := Push(buckets, line);
      }
      i := i + 1;
    }
    assert CleanAll(lines)[..i] == CleanAll(lines);
    return true, words, buckets, i;
  }

  /** The state a load reports when it stops at line `n`: the words of the lines before it,
      and the word of line `n` already among them. */
  ghost predicate LoadStoppedAt(lines: seq<string>, n: nat, words: set<string>, buckets: Buckets)
    requires n < |lines|
  {
    var before := StoredAfter(lines, n);
    Distinct(before) && words == Elems(before) && buckets == BucketsOf(before) &&
    Clean(lines[n]) != [] && Clean(lines[n]) in words
  }

  // ---------------------------------------------------------------------
  // Loading, then searching

  /** After a successful load, the search counts the composite words of the file, the first
      reported is a longest one and the second a longest one among the others. */
  lemma LoadThenSearch(lines: seq<string>, preSort: bool)
    requires Distinct(CleanedWords(lines))
    ensures var S := Elems(CleanedWords(lines));
      var found := Matches(S, ScanOrder(PreSorted(BucketsOf(CleanedWords(lines)), preSort)));
      && |found| == |CompositeWords(S)|
      && (forall x :: x in found <==> x in CompositeWords(S))
      && (|found| >= 1 ==> forall w :: w in CompositeWords(S) ==> |w| <= |found[0]|)
      && (|found| >= 2 ==> |found[0]| >= |found[1]|)
      && (|found| >= 2 ==> forall w :: w in CompositeWords(S) && w != found[0] ==> |w| <= |found[1]|)
  {
    var ws := CleanedWords(lines);
    CleanedWordsMembers(lines);
    IngestBuildsIndex(ws);
    FindLongestReport(Elems(ws), BucketsOf(ws), preSort);
  }
}

=== FILE: lengthindex.dfy ===
/**
 * The length index (`FLLengthMap`): a map from word length to the bucket of
 * words of that length, in insertion order, and the order in which the
 * search driver visits it (keys sorted ascending, walked from the last).
 */
module LengthIndex {
  import opened Seqs

  type Buckets = map<nat, seq<string>>

  /** The bucket stored under `k`; no bucket reads as an empty one. */
  function Bucket(m: Buckets, k: nat): seq<string> {
    if k in m then m[k] else []
  }

  /** The buckets of `keys` visited from the last key to the first, each in stored order. */
  function Scan(m: Buckets, keys: seq<nat>): seq<string> {
    if keys == [] then [] else Scan(m, keys[1..]) + Bucket(m, keys[0])
  }

  /** Scanning from key `i` is scanning from `i + 1`, then the bucket of key `i`. */
  lemma ScanStep(m: Buckets, keys: seq<nat>, i: nat)
    requires i < |keys|
    ensures Scan(m, keys[i..]) == Scan(m, keys[i + 1..]) + Bucket(m, keys[i])
  {
    assert keys[i..][1..] == keys[i + 1..];
  }

  predicate StrictlyAscending(s: seq<nat>) {
    forall i, j :: 0 <= i < j < |s| ==> s[i] < s[j]
  }

  ghost function MinOf(K: set<nat>): (k: nat)
    requires K != {}
    ensures k in K && forall j :: j in K ==> k <= j
  {
    var x :| x in K;
    assert forall j :: j in K ==> j == x || j in K - {x};
    if K - {x} == {} then x
    else
      var y := MinOf(K - {x});
      if x <= y then x else y
  }

  /** The keys of a set in ascending order: what the sorted key vector holds. */
  ghost function AscendingKeys(K: set<nat>): (r: seq<nat>)
    ensures StrictlyAscending(r)
    ensures forall k :: k in r <==> k in K
    decreases K
  {
    if K == {} then []
    else
      var k := MinOf(K);
      [k] + AscendingKeys(K - {k})
  }

  /** The order in which the search visits the words of `m`: longest bucket first. */
  ghost function ScanOrder(m: Buckets): seq<string> {
    Scan(m, AscendingKeys(m.Keys))
  }

  /** `m` indexes exactly the words of `S`: each word sits once, in the bucket of its length. */
  ghost predicate ExactIndex(S: set<string>, m: Buckets) {
    (forall k, w :: k in m && w in m[k] ==> |w| == k && w in S) &&
    (forall k :: k in m ==> Distinct(m[k])) &&
    (forall w :: w in S ==> |w| in m && w in m[|w|])
  }

  /** No word is longer than one before it. */
  predicate LongestFirst(ws: seq<string>) {
    forall i, j :: 0 <= i < j < |ws| ==> |ws[i]| >= |ws[j]|
  }

  /** The scan of `keys` holds exactly the store words whose length is one of `keys`. */
  lemma {:induction false} ScanMembers(S: set<string>, m: Buckets, keys: seq<nat>)
    requires ExactIndex(S, m)
    ensures forall x :: x in Scan(m, keys) <==> x in S && |x| in keys
  {
    if keys != [] {
      ScanMembers(S, m, keys[1..]);
      assert keys == [keys[0]] + keys[1..];
      forall x ensures x in Bucket(m, keys[0]) <==> x in S && |x| == keys[0] {
      }
    }
  }

  /** Distinct keys give a scan without repeats. */
  lemma {:induction false} ScanDistinct(S: set<string>, m: Buckets, keys: seq<nat>)
    requires ExactIndex(S, m) && StrictlyAscending(keys)
    ensures Distinct(Scan(m, keys))
  {
    if keys != [] {
      var rest := keys[1..];
      assert StrictlyAscending(rest) by {
        forall i, j | 0 <= i < j < |rest| ensures rest[i] < rest[j] {
          assert rest[i] == keys[i + 1] && rest[j] == keys[j + 1];
        }
      }
      ScanDistinct(S, m, rest);
      ScanMembers(S, m, rest);
      forall x | x in Scan(m, rest) ensures x !in Bucket(m, keys[0]) {
        var i :| 0 <= i < |rest| && rest[i] == |x|;
        assert keys[i + 1] == |x|;
      }
      DistinctConcat(Scan(m, rest), Bucket(m, keys[0]));
    }
  }

  /** Ascending keys walked from the end give the longest words first. */
  lemma {:induction false} ScanLongestFirst(S: set<string>, m: Buckets, keys: seq<nat>)
    requires ExactIndex(S, m) && StrictlyAscending(keys)
    ensures LongestFirst(Scan(m, keys))
  {
    if keys != [] {
      var rest := keys[1..];
      assert StrictlyAscending(rest) by {
        forall i, j | 0 <= i < j < |rest| ensures rest[i] < rest[j] {
          assert rest[i] == keys[i + 1] && rest[j] == keys[j + 1];
        }
      }
      ScanLongestFirst(S, m, rest);
      ScanMembers(S, m, rest);
      var a, b := Scan(m, rest), Bucket(m, keys[0]);
      var c := a + b;
      forall i, j | 0 <= i < j < |c| ensures |c[i]| >= |c[j]| {
        if j >= |a| {
          assert c[j] == b[j - |a|] && |c[j]| == keys[0];
          if i < |a| {
            assert c[i] in a;
            var p :| 0 <= p < |rest| && rest[p] == |c[i]|;
            assert keys[p + 1] == |c[i]|;
          } else {
            assert c[i] == b[i - |a|];
          }
        }
      }
    }
  }

  /** The search visits every store word exactly once, longest words first. */
  lemma ScanOrderEnumerates(S: set<string>, m: Buckets)
    requires ExactIndex(S, m)
    ensures Distinct(ScanOrder(m)) && LongestFirst(ScanOrder(m))
    ensures forall x :: x in ScanOrder(m) <==> x in S
  {
    var keys := AscendingKeys(m.Keys);
    ScanMembers(S, m, keys);
    ScanDistinct(S, m, keys);
    ScanLongestFirst(S, m, keys);
  }
}

=== FILE: normalize.dfy ===
/**
 * Normalisation of one input line into a word: `cleanWord` and the four
 * helpers it calls in order (end-of-line trim, leading-space trim,
 * trailing-space trim, lower-casing).  The helpers work in place on a
 * `std::string&`; here each takes the string and returns its new value.
 */
module Normalize {

  predicate IsEndOfLine(c: char) { c == '\n' || c == '\r' }

  predicate IsUpper(c: char) { 'A' <= c <= 'Z' }

  /** ASCII lower-casing of one character; everything outside `A`-`Z` is kept. */
  function LowerChar(c: char): (r: char)
    ensures !IsUpper(r)
    ensures r == ' ' <==> c == ' '
  {
    if IsUpper(c) then (c as int + 32) as char else c
  }

  /** `s.replace(pos, count, "")`: removes `count` characters from `pos`,
      the count being clamped to what is left of the string. */
  function Erase(s: string, pos: nat, count: nat): (r: string)
    requires pos <= |s|
    ensures |r| == if pos + count <= |s| then |s| - count else pos
    ensures s[..pos] <= r
  {
    s[..pos] + s[(if count < |s| - pos then pos + count else |s|)..]
  }

  /** Within the string, the characters after the erased range are kept, in order. */
  lemma EraseKeepsTail(s: string, pos: nat, count: nat)
    requires pos + count <= |s|
    ensures Erase(s, pos, count)[pos..] == s[pos + count..]
  {
  }

  /** Erasing a prefix leaves the suffix. */
  lemma EraseFront(s: string, n: nat)
    requires n <= |s|
    ensures Erase(s, 0, n) == s[n..]
  {
    assert s[..0] + s[n..] == s[n..];
  }

  // ---------------------------------------------------------------------
  // Specification functions

  /** The longest prefix of `s` that does not end in `'\n'` or `'\r'`. */
  function StripEndOfLine(s: string): (r: string)
    ensures r <= s
    ensures forall i :: |r| <= i < |s| ==> IsEndOfLine(s[i])
    ensures r == [] || !IsEndOfLine(r[|r| - 1])
  {
    if s != [] && IsEndOfLine(s[|s| - 1]) then StripEndOfLine(s[..|s| - 1]) else s
  }

  /** The longest suffix of `s` that does not start with `' '`. */
  function StripLeadingSpaces(s: string): (r: string)
    ensures |r| <= |s| && r == s[|s| - |r|..]
    ensures forall i :: 0 <= i < |s| - |r| ==> s[i] == ' '
    ensures r == [] || r[0] != ' '
  {
    if s != [] && s[0] == ' ' then
      var r := StripLeadingSpaces(s[1..]);
      assert s[1..][|s| - 1 - |r|..] == s[|s| - |r|..];
      r
    else s
  }

  /** Where the run of trailing spaces of `s` starts (`|s|` when there is none). */
  function TrailingRunStart(s: string): (e: nat)
    ensures e <= |s|
    ensures forall i :: e <= i < |s| ==> s[i] == ' '
    ensures e == 0 || s[e - 1] != ' '
  {
    if s != [] && s[|s| - 1] == ' ' then TrailingRunStart(s[..|s| - 1]) else |s|
  }

  /** The longest prefix of `s` that does not end in `' '`. */
  function StripTrailingSpaces(s: string): (r: string)
    ensures r <= s
    ensures forall i :: |r| <= i < |s| ==> s[i] == ' '
    ensures r == [] || r[|r| - 1] != ' '
  {
    s[..TrailingRunStart(s)]
  }

  /** Character-wise ASCII lower-casing. */
  function LowerCase(s: string): (r: string)
    ensures |r| == |s|
    ensures forall i :: 0 <= i < |s| ==> r[i] == LowerChar(s[i])
  {
    if s == [] then [] else [LowerChar(s[0])] + LowerCase(s[1..])
  }

  /** The three trims of `cleanWord`, each run once, in this order. */
  function Trimmed(s: string): string {
    StripTrailingSpaces(StripLeadingSpaces(StripEndOfLine(s)))
  }

  /** What `cleanWord` computes: the three trims, then lower-casing. */
  function Clean(s: string): (r: string)
    ensures |r| <= |s|
    ensures r == [] || (r[0] != ' ' && r[|r| - 1] != ' ')
  {
    TrimmedHasNoOuterSpace(s);
    LowerCase(Trimmed(s))
  }

  /** A cleaned line is no longer than the line and is a normalised word. */
  lemma CleanNormalizes(s: string)
    ensures |Clean(s)| <= |s| && IsNormalized(Clean(s))
  {
    TrimmedHasNoOuterSpace(s);
    LowerCaseNormalizes(Trimmed(s));
  }

  /** Lower-casing a word without outer spaces normalises it. */
  lemma LowerCaseNormalizes(c: string)
    requires c == [] || (c[0] != ' ' && c[|c| - 1] != ' ')
    ensures |LowerCase(c)| == |c| && IsNormalized(LowerCase(c))
  {
  }

  /** The trims only shorten the line and leave no outer space. */
  lemma TrimmedHasNoOuterSpace(s: string)
    ensures |Trimmed(s)| <= |s|
    ensures Trimmed(s) == [] || (Trimmed(s)[0] != ' ' && Trimmed(s)[|Trimmed(s)| - 1] != ' ')
  {
    var b := StripLeadingSpaces(StripEndOfLine(s));
    var c := StripTrailingSpaces(b);
    assert c != [] ==> c[0] == b[0];
  }

  /** A word as the store keeps it: lower-case, no leading or trailing space. */
  predicate IsNormalized(w: string) {
    (forall i :: 0 <= i < |w| ==> !IsUpper(w[i])) &&
    (w == [] || (w[0] != ' ' && w[|w| - 1] != ' '))
  }

  /** The trims run once each, in a fixed order: a carriage return followed by
      spaces survives, so cleaning a cleaned word can change it again. */
  lemma CleanKeepsReturnBeforeSpaces()
    ensures Clean("a\r ") == "a\r"
    ensures Clean(Clean("a\r ")) == "a" != Clean("a\r ")
  {
    ReturnLineCleaned();
    ReturnWordCleaned();
  }

  /** The carriage return is shielded by the trailing space when the end-of-line trim runs. */
  lemma ReturnLineCleaned()
    ensures Clean("a\r ") == "a\r"
  {
    assert StripEndOfLine("a\r ") == "a\r ";
    assert StripLeadingSpaces("a\r ") == "a\r ";
    assert StripTrailingSpaces("a\r ") == "a\r" by {
      assert "a\r "[..2] == "a\r";
    }
    assert LowerCase("a\r") == "a\r";
  }

  /** A second cleaning removes the carriage return. */
  lemma ReturnWordCleaned()
    ensures Clean("a\r") == "a"
  {
    assert StripEndOfLine("a\r") == "a" by {
      assert "a\r"[..1] == "a";
    }
    assert LowerCase("a") == "a";
  }

  /** Only `' '` counts as a space: a tab is kept, and letters are folded. */
  lemma CleanKeepsTabs()
    ensures Clean(" \tA ") == "\ta"
  {
    TabLineTrimmedFront();
    TabLineTrimmedBack();
  }

  /** The first two steps on the tab line remove only its leading space. */
  lemma TabLineTrimmedFront()
    ensures StripLeadingSpaces(StripEndOfLine(" \tA ")) == "\tA "
  {
    TabLineHasNoEndOfLine();
    TabLineLeadingSpace();
  }

  lemma TabLineHasNoEndOfLine()
    ensures StripEndOfLine(" \tA ") == " \tA "
  {
  }

  lemma TabLineLeadingSpace()
    ensures StripLeadingSpaces(" \tA ") == "\tA "
  {
    assert " \tA "[1..] == "\tA ";
  }

  /** The last two steps on the tab line remove only its trailing space and fold the letter. */
  lemma TabLineTrimmedBack()
    ensures LowerCase(StripTrailingSpaces("\tA ")) == "\ta"
  {
    assert StripTrailingSpaces("\tA ") == "\tA";
    assert LowerCase("\tA") == "\ta";
  }

  // ---------------------------------------------------------------------
  // The source's in-place helpers

  /** `trimEndOfLine`: pops `'\n'` and `'\r'` off the end while there is one. */
  method TrimEndOfLine(s: string) returns (t: string)
    ensures t == StripEndOfLine(s)
  {
    t := s;
    while t != [] && IsEndOfLine(t[|t| - 1])
      invariant StripEndOfLine(t) == StripEndOfLine(s)
      decreases |t|
    {
      t := t[..|t| - 1];
    }
  }

  /** A run of `n` leading spaces followed by a non-space (or the end) is what gets stripped. */
  lemma {:induction false} LeadingRunExact(s: string, n: nat)
    requires n <= |s|
    requires forall i :: 0 <= i < n ==> s[i] == ' '
    requires n == |s| || s[n] != ' '
    ensures StripLeadingSpaces(s) == s[n..]
  {
    if n > 0 {
      LeadingRunExact(s[1..], n - 1);
      assert s[1..][n - 1..] == s[n..];
    }
  }

  /** Erasing the leading run found by the scan strips the leading spaces. */
  lemma LeadingRunErased(s: string, n: nat)
    requires n <= |s|
    requires forall i :: 0 <= i < n ==> s[i] == ' '
    requires n == |s| || s[n] != ' '
    ensures StripLeadingSpaces(s) == if n > 0 then Erase(s, 0, n) else s
  {
    LeadingRunExact(s, n);
    EraseFront(s, n);
    assert s[0..] == s;
  }

  /** `trimLeadingWhitespace`: finds the last leading space, then erases up to it. */
  method TrimLeadingWhitespace(s: string) returns (t: string)
    ensures t == StripLeadingSpaces(s)
  {
    t := s;
    var slen := |s|;
    if slen > 0 {
      var current := 0;
      var end := -1;
      while current < slen && s[current] == ' '
        invariant 0 <= current <= slen && end == current - 1
        invariant forall i :: 0 <= i < current ==> s[i] == ' '
      {
        end := current;
        current := current + 1;
      }
      LeadingRunErased(s, current);
      if end >= 0 {
        t := Erase(s, 0, end + 1);
      }
    }
  }

  /** What `trimTrailingWhitespace` computes.  The erase passes `slen - 1` as the
      count; the library clamps it, so this truncates at the first trailing space
      unless that space is at index 0, where one character is left behind. */
  function TrailingTrimAsWritten(s: string): (r: string)
    ensures r == if s != [] && TrailingRunStart(s) == 0 then " " else StripTrailingSpaces(s)
  {
    var end := TrailingRunStart(s);
    if end < |s| then
      assert end == 0 ==> s[|s| - 1..] == " ";
      assert end > 0 ==> s[..end] + s[|s|..] == s[..end];
      Erase(s, end, |s| - 1)
    else
      assert s[..|s|] == s;
      s
  }

  /** The all-space input is where the erase count goes wrong. */
  lemma TrailingTrimOfBlanks()
    ensures TrailingTrimAsWritten("  ") == " "
    ensures StripTrailingSpaces("  ") == ""
  {
    assert TrailingRunStart("  ") == 0 by {
      assert "  "[..1] == " ";
      assert " "[..0] == "";
    }
  }

  /** `trimTrailingWhitespace`: finds the first trailing space walking back, then erases. */
  method TrimTrailingWhitespace(s: string) returns (t: string)
    ensures t == TrailingTrimAsWritten(s)
    ensures s == [] || s[0] != ' ' ==> t == StripTrailingSpaces(s)
  {
    t := s;
    var slen := |s|;
    if slen > 0 {
      var current := slen - 1;
      var end := -1;
      while current >= 0 && s[current] == ' '
        invariant -1 <= current < slen
        invariant end == (if current == slen - 1 then -1 else current + 1)
        invariant forall i :: current < i < slen ==> s[i] == ' '
      {
        end := current;
        current := current - 1;
      }
      ghost var e := TrailingRunStart(s);
      assert e == current + 1;
      if end >= 0 {
        t := Erase(s, end, slen - 1);
      }
    }
  }

  /** `toLowerString`: transforms every character in place. */
  method ToLowerString(s: string) returns (t: string)
    ensures t == LowerCase(s)
  {
    t := s;
    if |t| == 0 {
      return;
    }
    var i := 0;
    while i < |t|
      invariant 0 <= i <= |t| == |s|
      invariant forall j :: 0 <= j < i ==> t[j] == LowerChar(s[j])
      invariant forall j :: i <= j < |t| ==> t[j] == s[j]
    {
      t := t[i := LowerChar(t[i])];
      i := i + 1;
    }
  }

  /** `cleanWord`: the four helpers in the source's order. */
  method CleanWord(s: string) returns (t: string)
    ensures t == Clean(s)
  {
    t := TrimEndOfLine(s);
    t := TrimLeadingWhitespace(t);
    t := TrimTrailingWhitespace(t);
    t := ToLowerString(t);
  }
}

=== FILE: search.dfy ===
/**
 * The search driver, `findLongestWordsOfWords`, with `extractAndSortKeys...`
 * and `sizeHashSortFunction`: the length keys are sorted ascending and walked
 * from the last, every bucket is scanned in stored order, every composite
 * word is counted and the first two met are recorded.
 */
module Search {
  import opened Seqs
  import opened Sorting
  import opened LengthIndex
  import opened Decompose

  // ---------------------------------------------------------------------
  // The two orders handed to `std::sort`

  /** `sizeHashSortFunction`: `strcmp(a, b) < 0`, character codes compared in turn,
      a proper prefix before the longer word. */
  function StrLess(a: string, b: string): (r: bool)
    ensures a < b ==> r
    ensures b <= a ==> !r
  {
    if b == [] then false
    else if a == [] then true
    else if a[0] != b[0] then a[0] < b[0]
    else StrLess(a[1..], b[1..])
  }

  /** The default `operator<` on the `int` length keys. */
  function NatLess(a: nat, b: nat): bool {
    a < b
  }

  lemma {:induction false} StrLessIrreflexive(a: string)
    ensures !StrLess(a, a)
  {
    if a != [] {
      StrLessIrreflexive(a[1..]);
    }
  }

  lemma {:induction false} StrLessTransitive(a: string, b: string, c: string)
    requires StrLess(a, b) && StrLess(b, c)
    ensures StrLess(a, c)
  {
    if a != [] && a[0] == b[0] && b[0] == c[0] {
      StrLessTransitive(a[1..], b[1..], c[1..]);
    }
  }

  lemma {:induction false} StrLessTotal(a: string, b: string)
    requires a != b
    ensures StrLess(a, b) || StrLess(b, a)
  {
    if a != [] && b != [] && a[0] == b[0] {
      assert a == [a[0]] + a[1..] && b == [b[0]] + b[1..];
      StrLessTotal(a[1..], b[1..]);
    }
  }

  /** Past a common prefix, the first differing character decides the comparison. */
  lemma {:induction false} StrLessFirstDifference(a: string, b: string, i: nat)
    requires i < |a| && i < |b| && a[..i] == b[..i] && a[i] != b[i]
    ensures StrLess(a, b) <==> a[i] < b[i]
    decreases i
  {
    if i > 0 {
      assert a[1..][..i - 1] == a[..i][1..] && b[1..][..i - 1] == b[..i][1..];
      StrLessFirstDifference(a[1..], b[1..], i - 1);
    }
  }

  /** The bucket comparison is a strict total order, so the pre-sort result is unique. */
  lemma StrLessIsStrictTotalOrder()
    ensures IsStrictTotalOrder(StrLess)
  {
    forall a ensures !StrLess(a, a) {
      StrLessIrreflexive(a);
    }
    forall a, b, c | StrLess(a, b) && StrLess(b, c) ensures StrLess(a, c) {
      StrLessTransitive(a, b, c);
    }
    forall a, b | a != b ensures StrLess(a, b) || StrLess(b, a) {
      StrLessTotal(a, b);
    }
  }

  lemma NatLessIsStrictTotalOrder()
    ensures IsStrictTotalOrder(NatLess)
  {
  }

  // ---------------------------------------------------------------------
  // Key extraction and the optional pre-sort

  /** The length map after the optional pre-sort of every bucket. */
  function PreSorted(m: Buckets, preSort: bool): (r: Buckets)
    ensures r.Keys == m.Keys
    ensures forall k :: k in r ==> multiset(r[k]) == multiset(m[k])
    ensures !preSort ==> r == m
  {
    if preSort then map k | k in m :: SortBy(m[k], StrLess) else m
  }

  /** Pre-sorting only reorders buckets: the index stays exact and each bucket is sorted. */
  lemma PreSortedKeepsIndex(S: set<string>, m: Buckets, preSort: bool)
    requires ExactIndex(S, m)
    ensures ExactIndex(S, PreSorted(m, preSort))
    ensures preSort ==> forall k :: k in m ==> SortedBy(PreSorted(m, preSort)[k], StrLess)
  {
    var r := PreSorted(m, preSort);
    assert r.Keys == m.Keys;
    if preSort {
      StrLessIsStrictTotalOrder();
      forall k | k in m
        ensures Distinct(r[k]) && SortedBy(r[k], StrLess)
        ensures forall w :: w in r[k] <==> w in m[k]
      {
        SortBySorted(m[k], StrLess);
        PermutationKeepsDistinct(m[k], r[k]);
      }
    }
  }

  /** Once every bucket has been visited, the visited map is the pre-sorted map. */
  lemma PreSortedWhenDone(m: Buckets, preSort: bool, sorted: Buckets)
    requires sorted.Keys == m.Keys
    requires forall k :: k in m ==> sorted[k] == if preSort then SortBy(m[k], StrLess) else m[k]
    ensures sorted == PreSorted(m, preSort)
  {
  }

  /** Sorting the pushed keys, whatever order the map gave them in, yields the ascending keys. */
  lemma SortedKeysAscending(pushed: seq<nat>, K: set<nat>)
    requires Distinct(pushed)
    requires forall k :: k in pushed <==> k in K
    ensures SortBy(pushed, NatLess) == AscendingKeys(K)
  {
    NatLessIsStrictTotalOrder();
    SortBySorted(pushed, NatLess);
    var ascending := AscendingKeys(K);
    DistinctSameElems(pushed, ascending);
    SortedUnique(SortBy(pushed, NatLess), ascending, NatLess);
  }

  /** `extractAndSortKeysFromSizeHash`: pushes every key (pre-sorting its bucket when
      asked), then sorts the key vector.  The map's own iteration order is arbitrary. */
  method ExtractAndSortKeys(m: Buckets, preSort: bool) returns (keyVector: seq<nat>, sorted: Buckets)
    ensures keyVector == AscendingKeys(m.Keys)
    ensures StrictlyAscending(keyVector)
    ensures sorted == PreSorted(m, preSort)
  {
    keyVector := [];
    sorted := m;
    var remaining := m.Keys;
    while remaining != {}
      invariant remaining <= m.Keys
      invariant Distinct(keyVector)
      invariant forall k :: k in keyVector <==> k in m && k !in remaining
      invariant sorted.Keys == m.Keys
      invariant forall k :: k in m ==>
        sorted[k] == if preSort && k !in remaining then SortBy(m[k], StrLess) else m[k]
      decreases remaining
    {
      var k :| k in remaining;
      keyVector := keyVector + [k];
      if preSort {
        sorted := sorted[k := SortBy(sorted[k], StrLess)];
      }
      remaining := remaining - {k};
    }
    PreSortedWhenDone(m, preSort, sorted);
    SortedKeysAscending(keyVector, m.Keys);
    keyVector := SortBy(keyVector, NatLess);
  }

  // ---------------------------------------------------------------------
  // What the scan finds

  /** The composite words of `ws`, in scan order. */
  function Matches(S: set<string>, ws: seq<string>): seq<string>
  {
    if ws == [] then []
    else
      var last := ws[|ws| - 1];
      assert ws == ws[..|ws| - 1] + [last];
      Matches(S, ws[..|ws| - 1]) + (if IsComposite(S, last) then [last] else [])
  }

  /** The matches are exactly the composite words of the scan. */
  lemma {:induction false} MatchesMembers(S: set<string>, ws: seq<string>)
    ensures forall x :: x in Matches(S, ws) <==> x in ws && IsComposite(S, x)
  {
    if ws != [] {
      var init, last := ws[..|ws| - 1], ws[|ws| - 1];
      MatchesMembers(S, init);
      assert ws == init + [last];
    }
  }

  /** Scanning one more word of a bucket appends it to the matches exactly when it is composite. */
  lemma MatchesNext(S: set<string>, before: seq<string>, ws: seq<string>, i: nat)
    requires i < |ws|
    ensures Matches(S, before + ws[..i + 1])
         == Matches(S, before + ws[..i]) + if IsComposite(S, ws[i]) then [ws[i]] else []
  {
    var scanned := before + ws[..i];
    assert before + ws[..i + 1] == scanned + [ws[i]];
    assert (scanned + [ws[i]])[..|scanned|] == scanned;
  }

  /** The `i`-th match, or the empty string the driver keeps when there is none. */
  function Nth(found: seq<string>, i: nat): string {
    if i < |found| then found[i] else ""
  }

  lemma NthAppend(found: seq<string>, word: string)
    ensures forall i: nat :: i < |found| ==> Nth(found + [word], i) == Nth(found, i)
    ensures Nth(found + [word], |found|) == word
  {
  }

  /** The composite words of the store. */
  ghost function CompositeWords(S: set<string>): set<string> {
    set w | w in S && IsComposite(S, w)
  }

  /** Matches keep the scan's order: no repeats, longest first. */
  lemma {:induction false} MatchesKeepOrder(S: set<string>, ws: seq<string>)
    requires Distinct(ws) && LongestFirst(ws)
    ensures Distinct(Matches(S, ws)) && LongestFirst(Matches(S, ws))
  {
    if ws != [] {
      var init, last := ws[..|ws| - 1], ws[|ws| - 1];
      assert Distinct(init) && LongestFirst(init);
      MatchesKeepOrder(S, init);
      MatchesMembers(S, init);
      var a := Matches(S, init);
      if IsComposite(S, last) {
        var r := a + [last];
        forall i | 0 <= i < |a| ensures a[i] != last && |a[i]| >= |last| {
          assert a[i] in init;
          var p :| 0 <= p < |init| && init[p] == a[i];
          assert ws[p] == a[i];
        }
        assert forall x :: x in a ==> x !in [last];
        DistinctConcat(a, [last]);
        forall i, j | 0 <= i < j < |r| ensures |r[i]| >= |r[j]| {
          if j == |a| {
            assert r[i] == a[i];
          }
        }
      }
    }
  }

  /** Over any scan that lists the store once, longest words first, the matches are the
      composite words of the store, the first the longest of them, the second the longest
      of the others. */
  lemma {:induction false} MatchesOfEnumeration(S: set<string>, ws: seq<string>)
    requires Distinct(ws) && LongestFirst(ws)
    requires forall x :: x in ws <==> x in S
    ensures var found := Matches(S, ws);
      && |found| == |CompositeWords(S)|
      && (forall x :: x in found <==> x in CompositeWords(S))
      && Distinct(found)
      && (|found| >= 1 ==> forall w :: w in CompositeWords(S) ==> |w| <= |found[0]|)
      && (|found| >= 2 ==> |found[0]| >= |found[1]|)
      && (|found| >= 2 ==> forall w :: w in CompositeWords(S) && w != found[0] ==> |w| <= |found[1]|)
  {
    MatchesKeepOrder(S, ws);
    MatchesMembers(S, ws);
    var found := Matches(S, ws);
    assert Elems(found) == CompositeWords(S);
    DistinctCard(found);
    forall w | w in CompositeWords(S) ensures |w| <= |found[0]| && (w != found[0] ==> |w| <= |found[1]|) {
      assert w in found;
      var i :| 0 <= i < |found| && found[i] == w;
      if i >= 1 {
        assert |found[0]| >= |found[i]|;
      }
      if i >= 2 {
        assert |found[1]| >= |found[i]|;
      }
    }
  }

  /** What the search reports over an exact index, with or without the pre-sort. */
  lemma FindLongestReport(S: set<string>, m: Buckets, preSort: bool)
    requires ExactIndex(S, m)
    ensures var found := Matches(S, ScanOrder(PreSorted(m, preSort)));
      && |found| == |CompositeWords(S)|
      && (forall x :: x in found <==> x in CompositeWords(S))
      && (|found| >= 1 ==> forall w :: w in CompositeWords(S) ==> |w| <= |found[0]|)
      && (|found| >= 2 ==> |found[0]| >= |found[1]|)
      && (|found| >= 2 ==> forall w :: w in CompositeWords(S) && w != found[0] ==> |w| <= |found[1]|)
  {
    var sorted := PreSorted(m, preSort);
    PreSortedKeepsIndex(S, m, preSort);
    ScanOrderEnumerates(S, sorted);
    MatchesOfEnumeration(S, ScanOrder(sorted));
  }

  // ---------------------------------------------------------------------
  // The driver

  /** `findLongestWordsOfWords`: sorts the length keys, then scans the buckets from the
      longest length down, counting every composite word and keeping the first two. */
  method FindLongestWordsOfWords(S: set<string>, m: Buckets, preSort: bool)
    returns (countFound: nat, firstWord: string, secondWord: string)
    ensures var found := Matches(S, ScanOrder(PreSorted(m, preSort)));
      && countFound == |found|
      && firstWord == Nth(found, 0)
      && secondWord == Nth(found, 1)
  {
    var keyList, sorted := ExtractAndSortKeys(m, preSort);
    countFound, firstWord, secondWord := ScanBuckets(S, keyList, sorted);
  }

  /** The outer loop of `findLongestWordsOfWords`: the keys from the last to the first. */
  method ScanBuckets(S: set<string>, keyList: seq<nat>, sorted: Buckets)
    returns (countFound: nat, firstWord: string, secondWord: string)
    ensures var found := Matches(S, Scan(sorted, keyList));
      && countFound == |found|
      && firstWord == Nth(found, 0)
      && secondWord == Nth(found, 1)
  {
    firstWord, secondWord := "", "";
    var firstFound, secondFound := false, false;
    countFound := 0;
    ghost var scanned: seq<string> := [];

    var keyListIndex := |keyList| - 1;
    while keyListIndex >= 0
      invariant -1 <= keyListIndex < |keyList|
      invariant scanned == Scan(sorted, keyList[keyListIndex + 1..])
      invariant Reported(Matches(S, scanned), countFound, firstFound, secondFound, firstWord, secondWord)
    {
      var wordList := Bucket(sorted, keyList[keyListIndex]);
      countFound, firstFound, secondFound, firstWord, secondWord :=
        ScanBucket(S, wordList, scanned, countFound, firstFound, secondFound, firstWord, secondWord);
      scanned := scanned + wordList;
      ScanStep(sorted, keyList, keyListIndex);
      keyListIndex := keyListIndex - 1;
    }
    assert keyList[0..] == keyList;
  }

  /** The driver's state after the matches `found`: the count, the two flags and the first
      and second match, `""` when there is none. */
  predicate Reported(found: seq<string>, countFound: nat, firstFound: bool, secondFound: bool,
                     firstWord: string, secondWord: string)
  {
    && countFound == |found|
    && firstFound == (|found| >= 1)
    && secondFound == (|found| >= 2)
    && firstWord == Nth(found, 0)
    && secondWord == Nth(found, 1)
  }

  /** The inner loop of `findLongestWordsOfWords`: one bucket in stored order, carrying the
      driver's state from the words scanned `before` it to the words scanned after it. */
  method ScanBucket(S: set<string>, wordList: seq<string>, ghost before: seq<string>,
                    countFound0: nat, firstFound0: bool, secondFound0: bool,
                    firstWord0: string, secondWord0: string)
    returns (countFound: nat, firstFound: bool, secondFound: bool,
             firstWord: string, secondWord: string)
    requires Reported(Matches(S, before), countFound0, firstFound0, secondFound0, firstWord0, secondWord0)
    ensures Reported(Matches(S, before + wordList), countFound, firstFound, secondFound, firstWord, secondWord)
  {
    countFound, firstFound, secondFound := countFound0, firstFound0, secondFound0;
    firstWord, secondWord := firstWord0, secondWord0;
    ghost var found := Matches(S, before);
    var listLength := |wordList|;
    var wordListIndex := 0;
    assert before + wordList[..0] == before;
    while wordListIndex < listLength
      invariant 0 <= wordListIndex <= listLength
      invariant found == Matches(S, before + wordList[..wordListIndex])
      invariant Reported(found, countFound, firstFound, secondFound, firstWord, secondWord)
    {
      var word := wordList[wordListIndex];
      var isComposite := WordIsMadeOfOtherWords(word, S);
      MatchesNext(S, before, wordList, wordListIndex);
      if isComposite {
        countFound := countFound + 1;
        if !secondFound {
          if !firstFound {
            firstWord := word;
            firstFound := true;
          } else {
            secondWord := word;
            secondFound := true;
          }
        }
        NthAppend(found, word);
        found := found + [word];
      }
      wordListIndex := wordListIndex + 1;
    }
    assert wordList[..listLength] == wordList;
  }
}

=== FILE: seqs.dfy ===
/** Small facts about sequences used as ordered collections of distinct words. */
module Seqs {

  /** No element occurs twice. */
  predicate Distinct<T(==)>(s: seq<T>) {
    forall i, j :: 0 <= i < j < |s| ==> s[i] != s[j]
  }

  /** The set of elements of a sequence. */
  function Elems<T>(s: seq<T>): set<T> {
    set x | x in s
  }

  /** In a sequence without repeats every element occurs exactly once. */
  lemma {:induction false} DistinctMultiplicity<T>(s: seq<T>, x: T)
    requires Distinct(s)
    ensures multiset(s)[x] == if x in s then 1 else 0
  {
    if s != [] {
      assert s == [s[0]] + s[1..];
      assert Distinct(s[1..]) by {
        forall i, j | 0 <= i < j < |s[1..]| ensures s[1..][i] != s[1..][j] {
          assert s[1..][i] == s[i + 1] && s[1..][j] == s[j + 1];
        }
      }
      DistinctMultiplicity(s[1..], x);
      assert s[0] !in s[1..] by {
        forall i | 0 <= i < |s[1..]| ensures s[1..][i] != s[0] {
          assert s[1..][i] == s[i + 1];
        }
      }
      assert multiset(s) == multiset{s[0]} + multiset(s[1..]);
    }
  }

  /** Two sequences without repeats that hold the same elements are permutations of each other. */
  lemma DistinctSameElems<T>(a: seq<T>, b: seq<T>)
    requires Distinct(a) && Distinct(b)
    requires forall x :: x in a <==> x in b
    ensures multiset(a) == multiset(b)
  {
    forall x ensures multiset(a)[x] == multiset(b)[x] {
      DistinctMultiplicity(a, x);
      DistinctMultiplicity(b, x);
    }
  }

  /** A permutation of a sequence without repeats has no repeats and the same elements. */
  lemma PermutationKeepsDistinct<T>(a: seq<T>, b: seq<T>)
    requires multiset(a) == multiset(b) && Distinct(a)
    ensures Distinct(b)
    ensures forall x :: x in a <==> x in b
  {
    forall x ensures x in a <==> x in b {
      assert x in a <==> x in multiset(a);
      assert x in b <==> x in multiset(b);
    }
    forall i, j | 0 <= i < j < |b| ensures b[i] != b[j] {
      if b[i] == b[j] {
        assert b == b[..j] + b[j..];
        assert b[i] in b[..j] && b[j] in b[j..] by {
          assert b[..j][i] == b[i];
          assert b[j..][0] == b[j];
        }
        assert multiset(b)[b[i]] == multiset(b[..j])[b[i]] + multiset(b[j..])[b[i]];
        DistinctMultiplicity(a, b[i]);
        assert false;
      }
    }
  }

  /** Joining two sequences without repeats and without common elements keeps it so. */
  lemma DistinctConcat<T>(a: seq<T>, b: seq<T>)
    requires Distinct(a) && Distinct(b)
    requires forall x :: x in a ==> x !in b
    ensures Distinct(a + b)
  {
    var c := a + b;
    forall i, j | 0 <= i < j < |c| ensures c[i] != c[j] {
      if i < |a| && |a| <= j {
        assert c[i] in a && c[j] == b[j - |a|];
      }
    }
  }

  /** A sequence without repeats has as many elements as its set. */
  lemma {:induction false} DistinctCard<T>(s: seq<T>)
    requires Distinct(s)
    ensures |Elems(s)| == |s|
  {
    if s != [] {
      var tail := s[1..];
      assert Distinct(tail) by {
        forall i, j | 0 <= i < j < |tail| ensures tail[i] != tail[j] {
          assert tail[i] == s[i + 1] && tail[j] == s[j + 1];
        }
      }
      DistinctCard(tail);
      assert s[0] !in tail by {
        forall i | 0 <= i < |tail| ensures tail[i] != s[0] {
          assert tail[i] == s[i + 1];
        }
      }
      assert s == [s[0]] + tail;
      assert Elems(s) == {s[0]} + Elems(tail);
    }
  }
}

=== FILE: sorting.dfy ===
/**
 * `std::sort` as the source uses it: on the vector of length keys and, when
 * pre-sorting is requested, on each length bucket.  It is modelled by an
 * insertion sort; under a strict total order the sorted permutation of a
 * sequence is unique, so which algorithm produces it cannot be observed.
 */
module Sorting {

  /** `less` is irreflexive, transitive and relates any two distinct values. */
  ghost predicate IsStrictTotalOrder<T(!new)>(less: (T, T) -> bool) {
    (forall a :: !less(a, a)) &&
    (forall a, b, c :: less(a, b) && less(b, c) ==> less(a, c)) &&
    (forall a, b :: a != b ==> less(a, b) || less(b, a))
  }

  /** No element is `less` than one before it. */
  predicate SortedBy<T>(s: seq<T>, less: (T, T) -> bool) {
    forall i, j :: 0 <= i < j < |s| ==> !less(s[j], s[i])
  }

  /** Puts `x` in front of the first element it is not greater than. */
  function InsertBy<T>(x: T, s: seq<T>, less: (T, T) -> bool): (r: seq<T>)
    ensures multiset(r) == multiset(s) + multiset{x}
  {
    if s == [] || !less(s[0], x) then [x] + s
    else
      assert s == [s[0]] + s[1..];
      [s[0]] + InsertBy(x, s[1..], less)
  }

  /** The result of `std::sort(begin, end, less)`. */
  function SortBy<T>(s: seq<T>, less: (T, T) -> bool): (r: seq<T>)
    ensures multiset(r) == multiset(s)
  {
    if s == [] then []
    else
      assert s == [s[0]] + s[1..];
      InsertBy(s[0], SortBy(s[1..], less), less)
  }

  lemma NotLessTransitive<T(!new)>(less: (T, T) -> bool, a: T, b: T, c: T)
    requires IsStrictTotalOrder(less)
    requires !less(b, a) && !less(c, b)
    ensures !less(c, a)
  {
    if a != b && b != c {
      assert less(a, b) && less(b, c);
    }
  }

  lemma {:induction false} InsertBySorted<T(!new)>(x: T, s: seq<T>, less: (T, T) -> bool)
    requires IsStrictTotalOrder(less) && SortedBy(s, less)
    ensures SortedBy(InsertBy(x, s, less), less)
  {
    var r := InsertBy(x, s, less);
    if s == [] || !less(s[0], x) {
      forall j | 1 <= j < |r| ensures !less(r[j], x) {
        if j > 1 {
          NotLessTransitive(less, x, s[0], s[j - 1]);
        }
      }
    } else {
      var tail := s[1..];
      assert SortedBy(tail, less) by {
        forall i, j | 0 <= i < j < |tail| ensures !less(tail[j], tail[i]) {
          assert tail[i] == s[i + 1] && tail[j] == s[j + 1];
        }
      }
      InsertBySorted(x, tail, less);
      var rt := InsertBy(x, tail, less);
      forall j | 0 <= j < |rt| ensures !less(rt[j], s[0]) {
        assert rt[j] in multiset(rt);
        if rt[j] != x {
          assert rt[j] in multiset(tail);
          var k :| 0 <= k < |tail| && tail[k] == rt[j];
          assert tail[k] == s[k + 1];
        }
      }
    }
  }

  /** Sorting yields a sorted permutation. */
  lemma {:induction false} SortBySorted<T(!new)>(s: seq<T>, less: (T, T) -> bool)
    requires IsStrictTotalOrder(less)
    ensures SortedBy(SortBy(s, less), less)
    ensures multiset(SortBy(s, less)) == multiset(s)
  {
    if s != [] {
      SortBySorted(s[1..], less);
      InsertBySorted(s[0], SortBy(s[1..], less), less);
    }
  }

  /** The tail of a sorted sequence is sorted. */
  lemma SortedTail<T>(a: seq<T>, less: (T, T) -> bool)
    requires a != [] && SortedBy(a, less)
    ensures SortedBy(a[1..], less)
  {
    forall p, q | 0 <= p < q < |a[1..]| ensures !less(a[1..][q], a[1..][p]) {
      assert a[1..][q] == a[q + 1] && a[1..][p] == a[p + 1];
    }
  }

  /** Removing the head removes one occurrence of it from the multiset. */
  lemma TailMultiset<T>(a: seq<T>)
    requires a != []
    ensures multiset(a[1..]) == multiset(a) - multiset{a[0]}
  {
    assert a == [a[0]] + a[1..];
    assert multiset(a) == multiset{a[0]} + multiset(a[1..]);
  }

  /** Two sorted permutations of the same elements start with the same element. */
  lemma SortedHeads<T(!new)>(a: seq<T>, b: seq<T>, less: (T, T) -> bool)
    requires IsStrictTotalOrder(less)
    requires SortedBy(a, less) && SortedBy(b, less)
    requires multiset(a) == multiset(b) && a != []
    ensures b != [] && a[0] == b[0]
  {
    assert a[0] in multiset(b);
    assert b[0] in multiset(a);
    var j :| 0 <= j < |b| && b[j] == a[0];
    var i :| 0 <= i < |a| && a[i] == b[0];
    assert !less(a[i], a[0]) by { if i > 0 { } }
    assert !less(b[j], b[0]) by { if j > 0 { } }
  }

  /** Two sorted permutations of the same elements are equal, whatever algorithm made them. */
  lemma {:induction false} SortedUnique<T(!new)>(a: seq<T>, b: seq<T>, less: (T, T) -> bool)
    requires IsStrictTotalOrder(less)
    requires SortedBy(a, less) && SortedBy(b, less)
    requires multiset(a) == multiset(b)
    ensures a == b
    decreases |a|
  {
    if a == [] {
      assert |b| == |multiset(b)| == 0;
    } else {
      SortedHeads(a, b, less);
      TailMultiset(a);
      TailMultiset(b);
      SortedTail(a, less);
      SortedTail(b, less);
      SortedUnique(a[1..], b[1..], less);
      assert a == [a[0]] + a[1..] && b == [b[0]] + b[1..];
    }
  }
}
